=== FILE: README.md ===
# Notch Pay gateway for WooCommerce: payment decision logic

This project models the decision logic of the Notch Pay payment gateway for
WooCommerce, as implemented by the gateway class in
`includes/class-wc-gateway-notchpay.php`. It covers one order's payment:

- **Reference codec.** The transaction reference is the order id, `_`, and
  the Unix time of the request. The order id is read back as the text before
  the first `_` of the provider's `merchant_reference`.
- **Initialize.** `process_payment` and `processing_with_notchpay` store the
  reference on the order, send the initialize call, and classify the answer.
- **Verify.** `verify_transaction` is the return callback. It fetches the
  transaction, finds the order, sets its status from the provider's status,
  and then redirects to the order-received page, leaves an error notice, or
  does nothing further.
- **Small selectors.** These are the API-key selector, callback detection,
  the settings-page check, and the payment-complete status callback. The
  gateway class defines that callback but never registers it as a filter.
  So `payment_complete` in `process_payment` does not apply it.

The model is functional. Provider answers (HTTP status and parsed fields, or
a failed transfer), the clock (`now`) and the host's order lookup are
inputs. Every host call the gateway makes is recorded, in order, as an
`Effect` in the result. Examples are a meta write, a provider call, a status
update, clearing or adding a notice, a redirect, and emptying the cart.
`Effects.Notices` replays those effects to give the notices still pending.
Status names are the exact strings the gateway passes to the host. This
includes the provider's spelling `canceled`, which the gateway passes to the
host as an order status.

Modules: `Wrappers` (optional values), `Decimal` (integer text),
`Reference`, `Config` (settings and request predicates), `Orders`,
`Effects`, `Initialize` and `Verify`.

The code does not check that the order id prefix of a reference is an
integer: `Reference.ParseOrderId` passes any prefix through, as
`Reference.NonNumericIdPassesThrough` shows. The gateway class has no webhook
path, no signature check, no comparison of the paid amount or currency with
the order, no guard against settling an order twice, and never reads its
autocomplete setting; the model has none of these either.

## Model

| member | source | states |
|---|---|---|
| Decimal.Digits | includes/class-wc-gateway-notchpay.php:295 | The id and time text is a non-empty run of digits, with no leading zero unless the number is 0. |
| Decimal.ValueOfDigits | includes/class-wc-gateway-notchpay.php:295 | Reading the decimal text of an order id back as a number gives that id. |
| Decimal.ParseDigits | includes/class-wc-gateway-notchpay.php:295 | The decimal text of every id is accepted by the integer reader and denotes that id. |
| Decimal.DigitsInjective | includes/class-wc-gateway-notchpay.php:295 | Distinct order ids give distinct id texts, so a reference's prefix names at most one id. |
| Reference.BuildReference | includes/class-wc-gateway-notchpay.php:295 | The reference is the id's decimal text, then `_`, then the time's decimal text. Its only `_` is the one right after the id text. |
| Reference.FirstSegment | includes/class-wc-gateway-notchpay.php:384 | `explode('_', s)[0]` is the longest prefix of `s` with no `_`. It is followed by `_` unless it is all of `s`. |
| Reference.FirstSegmentUnique | includes/class-wc-gateway-notchpay.php:384 | Those three properties determine the segment, so they fully specify what line 384 extracts. |
| Reference.ParseOrderId | includes/class-wc-gateway-notchpay.php:383-384 | The id text read from `merchant_reference` is its longest prefix without `_`, followed by `_` unless it is the whole reference. |
| Reference.ParseBuildRoundTrip | includes/class-wc-gateway-notchpay.php:384 | Parsing a reference built at line 295 from order id `n` and any time gives the text of `n`, which reads back as `n`. |
| Reference.ParseOrderIdKeepsAnyPrefix | includes/class-wc-gateway-notchpay.php:383-384 | Any prefix without `_` is handed on as the order id, numeric or not. The code does no integer check. |
| Reference.ParseOrderIdWithoutSeparator | includes/class-wc-gateway-notchpay.php:384 | A reference with no `_` is handed on whole, not rejected. |
| Reference.NonNumericIdPassesThrough | includes/class-wc-gateway-notchpay.php:384 | `abc_123` yields the id text `abc`, which is not an integer. |
| Config.GetPublicKey | includes/class-wc-gateway-notchpay.php:57-60 | As written, the selector returns the live public key for every setting, because a boolean is never `===` the string `yes`. |
| Config.ActiveKey | includes/class-wc-gateway-notchpay.php:57-60 | The corrected selector returns the sandbox key exactly in sandbox mode and the public key otherwise. |
| Config.GetPublicKeyAgreesIff | includes/class-wc-gateway-notchpay.php:57-60 | The as-written and intended selectors agree if and only if sandbox mode is off or the two keys are equal. |
| Config.SandboxKeyNeverSelected | includes/class-wc-gateway-notchpay.php:46-59 | Concrete case: sandbox option `yes` and distinct keys. Line 46 turns sandbox mode on, yet the live key is sent. |
| Config.UnsavedSandboxOptionMeansSandbox | includes/class-wc-gateway-notchpay.php:123-128 | A never-saved sandbox option defaults to `yes`, so sandbox mode is on. The as-written selector still picks the live key. |
| Config.IsAccessingSettings | includes/class-wc-gateway-notchpay.php:178-197 | True if and only if the request is an admin request whose parameters contain `page=wc-settings`, `tab=checkout` and `section=notchpay`. |
| Config.DetectCallback | includes/class-wc-gateway-notchpay.php:62-68 | A query with both `np-callback` and `reference` marks a callback and keeps its reference. Any other query changes nothing. Every callback state keeps a `reference` for the handler to read. |
| Orders.ChangePaymentCompleteOrderStatus | includes/class-wc-gateway-notchpay.php:445-451 | Yields `processing` for an order whose payment method is `notchpay`, and the proposed status otherwise. It only ever yields one of those two values. |
| Initialize.BuildInitRequest | includes/class-wc-gateway-notchpay.php:282-305 | The request carries the order's total as amount, its currency and billing contact, the checkout URL as callback, and the live public key. Its reference parses back to the order's id. |
| Initialize.ProcessingWithNotchPay | includes/class-wc-gateway-notchpay.php:279-339 | The reference `id_now` is written to `_notchpay_txn_ref` first, before the single provider call carrying the same reference and the key the as-written selector returns, which is always the live public key. A result exists if and only if the status is 201. It is `success` with the returned authorization URL, and the transaction id becomes the returned reference. On 201 the transaction id is then set and the order saved, in that order, right after the call. Otherwise there is no result and the returned order differs from the input only in the stored reference. Neither path redirects the customer. The request sends the order's total, currency and the checkout URL. |
| Initialize.InitializeWritesOnly | includes/class-wc-gateway-notchpay.php:325-339 | After the meta write, status 201 sets the transaction id and saves the order, and writes nothing else. Any other answer writes nothing more to the order. Neither path marks the payment complete or empties the cart. |
| Initialize.InitializeNotices | includes/class-wc-gateway-notchpay.php:325-339 | Whatever notices were pending, status 201 leaves only the redirecting notice. Any other answer leaves only the error notice `Unable to process payment try again`. |
| Initialize.StoredReferenceNamesOrder | includes/class-wc-gateway-notchpay.php:295-316 | The reference stored on the order is the one sent, and parsing it gives back the order's id. |
| Initialize.ProcessPayment | includes/class-wc-gateway-notchpay.php:265-277 | The provider is contacted if and only if the total is greater than 0. Otherwise the payment is marked complete once and then the cart is emptied, with nothing else, and there is no result. |
| Verify.ProviderStatusTable | includes/class-wc-gateway-notchpay.php:387-397 | The three status tests together amount to one table lookup. `complete` gives `completed`, `canceled` and `failed` give themselves, with one status update. Any other status causes no update. |
| Verify.SettleFoundOrder | includes/class-wc-gateway-notchpay.php:386-403 | For a found order: at most one status update, as the first effect, and exactly when the status table maps the provider status. A redirect to that order follows exactly when the settled status is paid, and it is the only redirect and the last effect. There are no provider calls and no cart effects. |
| Verify.VerifyTransaction | includes/class-wc-gateway-notchpay.php:364-424 | The fetch is the only provider call, and it carries the live public key, as the as-written selector returns. The order is looked up if and only if the status is 200, with the text before the first `_` of `merchant_reference`. Only a found order is written, and only its status changes, as the status table says. A redirect to that order's return URL happens if and only if its resulting status is `processing`, `completed` or `on-hold`; it is the only redirect and the last effect. |
| Verify.VerifyWritesAtMostOnce | includes/class-wc-gateway-notchpay.php:364-424 | The callback writes an order at most once. It writes a found order exactly when the provider status is `complete`, `canceled` or `failed`. It never empties the cart. |
| Verify.TransportFailureOnlyNotices | includes/class-wc-gateway-notchpay.php:418-423 | A failed fetch does no lookup, no write and no redirect, and leaves only the refresh notice. |
| Verify.NotFoundOnlyNotices | includes/class-wc-gateway-notchpay.php:411-416 | A 404 does no lookup, no write and no redirect, and leaves only the `Transaction Not Found` notice. |
| Verify.OtherStatusSilent | includes/class-wc-gateway-notchpay.php:378-417 | Any status other than 200 or 404 does nothing beyond the fetch. The pending notices are unchanged. |
| Verify.MissingOrderOnlyNotices | includes/class-wc-gateway-notchpay.php:404-410 | A 200 naming an unknown order writes nothing and leaves only the `Order Not Found` notice. |
| Verify.StatusTable | includes/class-wc-gateway-notchpay.php:386-397 | For a found order, only the status changes, and it depends on the provider status alone, as in the table above. |
| Verify.SettleFoundOrderNotices | includes/class-wc-gateway-notchpay.php:399-403 | After the fetch, a found order's pending notices are cleared when the customer is redirected and left unchanged otherwise. |
| Verify.FoundOrderNotices | includes/class-wc-gateway-notchpay.php:399-403 | For a found order, the pending notices are cleared when the customer is redirected and left exactly as they were otherwise. |
| Verify.VerifyIdempotent | includes/class-wc-gateway-notchpay.php:387-403 | Running the callback again on the order as the first run left it gives the same order and the same redirect decision. |
| Verify.VerifyFindsBuiltOrder | includes/class-wc-gateway-notchpay.php:383-386 | When the provider echoes a reference built for order `n`, the lookup uses the text of `n`, and the order found is the one settled. |
| Verify.HandleRequest | includes/class-wc-gateway-notchpay.php:199-202 | A request is verified if and only if its query has both `np-callback` and `reference`. The transaction fetched is the one that `reference` names, with the live public key. |

## Findings

| source | as written | input that shows it | evidently intended | confidence | as-written member | corrected member |
|---|---|---|---|---|---|---|
| includes/class-wc-gateway-notchpay.php:59 | `$this->sandbox === "yes"` compares the boolean set at line 46 with a string, so it never holds | sandbox option `yes`, sandbox key `sb.test`, public key `pk.live`: `pk.live` is sent | send the sandbox key in sandbox mode | high; not executed | Config.GetPublicKey | Config.ActiveKey |

`Config.SandboxKeyNeverSelected` exhibits the as-written behaviour on the
input above, and `Config.GetPublicKeyAgreesIff` says exactly when the two
selectors differ. The provider requests in the model
(`Initialize.BuildInitRequest`, `Verify.VerifyTransaction`) carry the key of
the as-written selector, so they always carry the live public key, as the
code does. With the corrected selector they would carry `Config.ActiveKey`,
which differs exactly in the cases `Config.GetPublicKeyAgreesIff` names.

## Left out

- HTTP transport, JSON decoding, TLS and timeouts (lines 302-323, 366-382) are foreign calls. The provider's answer is an input datatype. A failed transfer reads as "no 201" on the initialize path, as the code's response-code comparison makes it.
- The host's order lookup `wc_get_order` is a function parameter from id text to an optional order. How WooCommerce resolves text to an id is host code. Lines 385-386 call the lookup twice with the same id, and the model looks up once.
- Host effects are recorded in the effect trace, not carried out. Notices, meta writes, status updates, `save`, `payment_complete`, `empty_cart` and `wp_redirect`/`exit` are all host code. WooCommerce's own handling of status names it does not register (such as `canceled`) is not modelled.
- Initialize.ProcessPayment: a zero-total order's status change made inside the host's `payment_complete` is only recorded as an effect. The returned order is unchanged. The operation takes the order itself, so the lookup `wc_get_order($order_id)` at line 267 is not modelled, nor its `false` result for an unknown id, on which the code fails when it calls `get_total()`.
- JSON field values that are not strings are not modelled: `status` and `merchant_reference` are optional strings. Under PHP's loose `==` at lines 387-395, a JSON `true` status would meet all three tests and leave the order `failed` after three status updates; the model's one-update status table holds only for string (or missing) statuses.
- The `catch (Exception)` branch (lines 340-357) adds an order note and logs. Nothing the model performs can throw, and exceptions raised inside host calls are not modelled.
- Translation (`__()`) is treated as the identity. The extra `sprintf` arguments of the notices are ignored, because the formats have no placeholders.
- Query and request parameters are modelled as strings. Array-valued PHP parameters are not modelled.
- The order total is an integer standing for the host's decimal total. It is compared with 0 (line 269) and sent unchanged as `amount` (line 292). Fractional totals are not represented.
- `load_shipping_method_options` (lines 209-257) walks the host's shipping-zone store. It is data-store plumbing.
- `admin_notices`, `thankyou_page`, `email_instructions`, `init_form_fields`, `setup_properties` and the constructor's hook registration are rendering and settings wiring. The plugin bootstrap files and the order-status registration file are the same kind of wiring.
- The `autocomplete_orders` setting is declared as a form field (lines 162-169) but never read, so it plays no part in the model.

=== FILE: config.dfy ===
/**
  Gateway settings and the small request predicates of the gateway class:
  which API key authorises provider calls, whether a request is the
  provider's return callback, and whether it opens the gateway's settings page.
 */
module Config {
  import opened Wrappers

  /** The gateway's id, also the `payment_method` of the orders it handles. */
  const GatewayId: string := "notchpay"

  /** Provider API root. */
  const Endpoint: string := "https://api.notchpay.co"

  /** The stored option values; `None` is an option never saved. */
  datatype Settings = Settings(publicKey: string, sandboxKey: string, sandboxOption: Option<string>)

  /** Default of the `sandbox` checkbox, used when it was never saved. */
  const SandboxDefault: string := "yes"

  /** The `sandbox` property: a boolean, true exactly when the option reads `yes`. */
  predicate SandboxEnabled(s: Settings) {
    s.sandboxOption.GetOr(SandboxDefault) == "yes"
  }

  /** The gateway's fixed settings and the checkout URL used as callback. */
  datatype Gateway = Gateway(settings: Settings, callbackUrl: string)

  /** The two PHP value kinds that meet in the key selector's comparison. */
  datatype PhpValue = PhpBool(b: bool) | PhpString(s: string)

  /** PHP's `===`: same type and same value. */
  predicate StrictEquals(a: PhpValue, b: PhpValue) {
    a == b
  }

  /**
    The key selector as written: it compares the boolean `sandbox` property
    with the string `yes` under `===`, which never holds, so the live public
    key is chosen whatever the sandbox setting.
   */
  function GetPublicKey(s: Settings): (key: string)
    ensures key == s.publicKey
  {
    if StrictEquals(PhpBool(SandboxEnabled(s)), PhpString("yes")) then s.sandboxKey else s.publicKey
  }

  /** The key the selector evidently means to choose: the sandbox key in sandbox mode. */
  function ActiveKey(s: Settings): (key: string)
    ensures key == s.sandboxKey || key == s.publicKey
    ensures key == s.sandboxKey <== SandboxEnabled(s)
    ensures key == s.publicKey <== !SandboxEnabled(s)
  {
    if SandboxEnabled(s) then s.sandboxKey else s.publicKey
  }

  /** The as-written selector agrees with the intended one exactly when sandbox mode is off or both keys coincide. */
  lemma GetPublicKeyAgreesIff(s: Settings)
    ensures GetPublicKey(s) == ActiveKey(s) <==> !SandboxEnabled(s) || s.sandboxKey == s.publicKey
  {
  }

  /** With sandbox mode on and distinct keys, the as-written selector still sends the live key. */
  lemma SandboxKeyNeverSelected()
    ensures var s := Settings("pk.live", "sb.test", Some("yes"));
            SandboxEnabled(s) && GetPublicKey(s) == "pk.live" && ActiveKey(s) == "sb.test"
  {
  }

  /** A fresh installation runs in sandbox mode, yet the as-written selector picks the live key. */
  lemma UnsavedSandboxOptionMeansSandbox(pk: string, sk: string)
    ensures SandboxEnabled(Settings(pk, sk, None))
    ensures GetPublicKey(Settings(pk, sk, None)) == pk
    ensures ActiveKey(Settings(pk, sk, None)) == sk
  {
  }

  /** The query parameters of the gateway's settings page. */
  const SettingsPageQuery: map<string, string> :=
    map["page" := "wc-settings", "tab" := "checkout", "section" := GatewayId]

  /**
    Whether the request opens this gateway's admin settings page: an admin
    request whose parameters include every settings-page parameter with its value.
   */
  function IsAccessingSettings(isAdmin: bool, request: map<string, string>): (r: bool)
    ensures r <==> isAdmin && forall k :: k in SettingsPageQuery ==> k in request && request[k] == SettingsPageQuery[k]
  {
    if isAdmin then
      if "page" !in request || "wc-settings" != request["page"] then false
      else if "tab" !in request || "checkout" != request["tab"] then false
      else if "section" !in request || GatewayId != request["section"] then false
      else true
    else false
  }

  /** The gateway's record of whether the current request is the provider's return callback. */
  datatype CallbackState = CallbackState(isCallback: bool, queryVars: map<string, string>)

  /** The property values before detection runs. */
  const InitialCallbackState: CallbackState := CallbackState(false, map[])

  /** A callback state the handler can act on: a callback always has a `reference`. */
  predicate CallbackReady(st: CallbackState) {
    st.isCallback ==> "reference" in st.queryVars
  }

  /**
    Callback detection: a query carrying both `np-callback` and `reference`
    marks the request as a callback and keeps the query; any other query
    leaves the state as it was.
   */
  function DetectCallback(st: CallbackState, query: map<string, string>): (r: CallbackState)
    requires CallbackReady(st)
    ensures CallbackReady(r)
    ensures "np-callback" in query && "reference" in query ==> r.isCallback && r.queryVars["reference"] == query["reference"]
    ensures !("np-callback" in query && "reference" in query) ==> r == st
  {
    if "np-callback" in query && "reference" in query then CallbackState(true, query) else st
  }
}

=== FILE: decimal.dfy ===
/**
  Decimal text of non-negative integers, as PHP writes an `int` when it is
  concatenated with a string, and a reader that turns such text back into a
  number.
 */
module Decimal {
  import opened Wrappers

  predicate IsDigit(c: char) {
    '0' <= c <= '9'
  }

  predicate AllDigits(s: string) {
    forall i :: 0 <= i < |s| ==> IsDigit(s[i])
  }

  function DigitValue(c: char): nat
    requires IsDigit(c)
  {
    c as int - '0' as int
  }

  function DigitChar(d: nat): (c: char)
    requires d < 10
    ensures IsDigit(c) && DigitValue(c) == d
  {
    ('0' as int + d) as char
  }

  /** The decimal form of `n`: at least one digit, and no leading zero unless `n` is 0. */
  function Digits(n: nat): (s: string)
    ensures |s| >= 1
    ensures AllDigits(s)
    ensures s[0] == '0' ==> n == 0
    decreases n
  {
    if n < 10 then [DigitChar(n)] else Digits(n / 10) + [DigitChar(n % 10)]
  }

  /** The number a run of digits denotes, most significant digit first. */
  function ValueOf(s: string): nat
    requires AllDigits(s)
  {
    if |s| == 0 then 0 else ValueOf(s[..|s| - 1]) * 10 + DigitValue(s[|s| - 1])
  }

  /** Reads `s` as a non-negative integer; `None` unless `s` is a non-empty run of digits. */
  function ParseNat(s: string): Option<nat> {
    if |s| > 0 && AllDigits(s) then Some(ValueOf(s)) else None
  }

  /** Reading back the decimal form of `n` gives `n`. */
  lemma {:induction false} ValueOfDigits(n: nat)
    ensures ValueOf(Digits(n)) == n
    decreases n
  {
    if n >= 10 {
      var s := Digits(n);
      assert s[..|s| - 1] == Digits(n / 10);
      ValueOfDigits(n / 10);
    }
  }

  /** The decimal form of every `n` parses, and parses to `n`. */
  lemma ParseDigits(n: nat)
    ensures ParseNat(Digits(n)) == Some(n)
  {
    ValueOfDigits(n);
  }

  /** Distinct numbers have distinct decimal forms. */
  lemma DigitsInjective(a: nat, b: nat)
    ensures Digits(a) == Digits(b) ==> a == b
  {
    ValueOfDigits(a);
    ValueOfDigits(b);
  }
}

=== FILE: effects.dfy ===
/**
  The host-side effects the gateway asks for, recorded in order: provider
  calls, order writes, notices, redirects. The host carries them out; the
  model only records them.
 */
module Effects {
  import opened Wrappers

  datatype NoticeKind = Success | Error

  datatype Notice = Notice(text: string, kind: NoticeKind)

  /** The JSON body of an initialize call and the key in its `Authorization` header. */
  datatype InitRequest = InitRequest(
    url: string,
    authorization: string,
    amount: int,
    currency: string,
    description: string,
    reference: string,
    callback: string,
    name: string,
    email: string,
    phone: string)

  datatype Effect =
    | UpdateMeta(orderId: nat, key: string, value: string)
    | PostInitialize(request: InitRequest)
    | GetTransaction(url: string, authorization: string)
    | SetTransactionId(orderId: nat, transactionId: Option<string>)
    | SaveOrder(orderId: nat)
    | UpdateStatus(orderId: nat, status: string)
    | ClearNotices
    | AddNotice(notice: Notice)
    | RedirectToReturnUrl(orderId: nat)  // redirect to the order-received page, then end the request
    | PaymentComplete(orderId: nat)
    | EmptyCart

  /** Effects that write an order. */
  predicate WritesOrder(e: Effect) {
    e.UpdateMeta? || e.SetTransactionId? || e.SaveOrder? || e.UpdateStatus? || e.PaymentComplete?
  }

  /** Effects that call the provider. */
  predicate CallsProvider(e: Effect) {
    e.PostInitialize? || e.GetTransaction?
  }

  predicate NoOrderWrites(effects: seq<Effect>) {
    forall i :: 0 <= i < |effects| ==> !WritesOrder(effects[i])
  }

  predicate NoRedirect(effects: seq<Effect>) {
    forall i :: 0 <= i < |effects| ==> !effects[i].RedirectToReturnUrl?
  }

  /** Any redirect in `effects` is the last effect and goes to order `id`'s return URL. */
  predicate RedirectOnlyLast(effects: seq<Effect>, id: nat) {
    forall i :: 0 <= i < |effects| && effects[i].RedirectToReturnUrl? ==>
      i == |effects| - 1 && effects[i] == RedirectToReturnUrl(id)
  }

  /** Putting an effect that is not a redirect in front keeps any redirect last. */
  lemma PrependKeepsRedirectLast(e: Effect, tail: seq<Effect>, id: nat)
    requires !e.RedirectToReturnUrl? && RedirectOnlyLast(tail, id)
    ensures RedirectOnlyLast([e] + tail, id)
  {
  }

  /** The pending notices after `effects`, starting from `before`. */
  function Notices(before: seq<Notice>, effects: seq<Effect>): seq<Notice>
    decreases |effects|
  {
    if |effects| == 0 then before
    else
      var last := effects[|effects| - 1];
      var prior := Notices(before, effects[..|effects| - 1]);
      match last
      case ClearNotices => []
      case AddNotice(n) => prior + [n]
      case _ => prior
  }

  predicate TouchesNotices(e: Effect) {
    e.ClearNotices? || e.AddNotice?
  }

  /** A trace that neither clears nor adds notices leaves the pending notices as they were. */
  lemma {:induction false} NoticesUnchanged(before: seq<Notice>, effects: seq<Effect>)
    requires forall i :: 0 <= i < |effects| ==> !TouchesNotices(effects[i])
    ensures Notices(before, effects) == before
    decreases |effects|
  {
    if |effects| > 0 {
      NoticesUnchanged(before, effects[..|effects| - 1]);
    }
  }

  /** Notices of a trace are those of its last part, started from those of its first part. */
  lemma {:induction false} NoticesAppend(before: seq<Notice>, xs: seq<Effect>, ys: seq<Effect>)
    ensures Notices(before, xs + ys) == Notices(Notices(before, xs), ys)
    decreases |ys|
  {
    if |ys| > 0 {
      assert (xs + ys)[..|xs + ys| - 1] == xs + ys[..|ys| - 1];
      NoticesAppend(before, xs, ys[..|ys| - 1]);
    } else {
      assert xs + ys == xs;
    }
  }
}

=== FILE: initialize.dfy ===
/**
  Starting a payment: `process_payment` and the initialize call it makes for
  orders with a positive total. The reference is stored on the order before
  the call goes out; the provider's answer is an input.
 */
module Initialize {
  import opened Wrappers
  import Config
  import Reference
  import Decimal
  import Orders
  import opened Effects

  /** Order meta key under which the reference is stored. */
  const TxnRefKey: string := "_notchpay_txn_ref"

  const InitializePath: string := "/transactions/initialize"

  const InitiatedNotice: Notice := Notice("Transaction initiated, Redirecting To Notch Pay to confirm payment", Success)

  const InitFailedNotice: Notice := Notice("Unable to process payment try again", Error)

  /** The provider's answer to the initialize call; a failed transfer has no status code. */
  datatype InitResponse =
    | InitTransportError
    | InitHttp(status: int, authorizationUrl: Option<string>, transactionReference: Option<string>)

  predicate Accepted(response: InitResponse) {
    response.InitHttp? && response.status == 201
  }

  /** The array a payment method hands back to the checkout. */
  datatype PaymentResult = PaymentResult(result: string, redirect: Option<string>)

  /** What a payment step returns, the order as it leaves it, and the effects it asked for. */
  datatype Outcome = Outcome(result: Option<PaymentResult>, order: Orders.Order, effects: seq<Effect>)

  /** The item names joined by a comma and a space, as the order description sent to the provider. */
  function Join(names: seq<string>): string
    decreases |names|
  {
    if |names| == 0 then ""
    else if |names| == 1 then names[0]
    else names[0] + ", " + Join(names[1..])
  }

  /**
    The initialize request for `order`, sent at Unix time `now`: the order's
    amount, currency and billing contact, a reference that reads back as the
    order's id, the checkout URL as callback, and the live public key.
   */
  function BuildInitRequest(gw: Config.Gateway, order: Orders.Order, now: nat): (req: InitRequest)
    ensures req.url == Config.Endpoint + InitializePath
    ensures req.authorization == gw.settings.publicKey
    ensures req.amount == order.total && req.currency == order.currency
    ensures req.callback == gw.callbackUrl
    ensures req.name == order.billingFullName && req.email == order.billingEmail && req.phone == order.billingPhone
    ensures Reference.ParseOrderId(req.reference) == Decimal.Digits(order.id)
    ensures Decimal.ParseNat(Reference.ParseOrderId(req.reference)) == Some(order.id)
  {
    Reference.ParseBuildRoundTrip(order.id, now);
    InitRequest(
      url := Config.Endpoint + InitializePath,
      authorization := Config.GetPublicKey(gw.settings),
      amount := order.total,
      currency := order.currency,
      description := Join(order.itemNames),
      reference := Reference.BuildReference(order.id, now),
      callback := gw.callbackUrl,
      name := order.billingFullName,
      email := order.billingEmail,
      phone := order.billingPhone)
  }

  /**
    `processing_with_notchpay`: store the reference, send the initialize call,
    and on status 201 record and save the provider's transaction reference and
    hand the returned payment page back to the checkout. Any other answer
    leaves an error notice and no result. Neither path redirects the customer
    itself.
   */
  function ProcessingWithNotchPay(gw: Config.Gateway, order: Orders.Order, now: nat, response: InitResponse): (r: Outcome)
    ensures |r.effects| >= 2
    ensures r.effects[0] == UpdateMeta(order.id, TxnRefKey, Reference.BuildReference(order.id, now))
    ensures r.effects[1].PostInitialize?
    ensures r.effects[1].request.reference == Reference.BuildReference(order.id, now)
    ensures r.effects[1].request.authorization == Config.GetPublicKey(gw.settings) == gw.settings.publicKey
    ensures r.effects[1].request.amount == order.total
    ensures r.effects[1].request.currency == order.currency
    ensures r.effects[1].request.callback == gw.callbackUrl
    ensures forall i :: 1 < i < |r.effects| ==> !CallsProvider(r.effects[i])
    ensures NoRedirect(r.effects)
    ensures Accepted(response) ==>
              && |r.effects| >= 4
              && r.effects[2] == SetTransactionId(order.id, response.transactionReference)
              && r.effects[3] == SaveOrder(order.id)
    ensures r.order.meta == order.meta[TxnRefKey := Reference.BuildReference(order.id, now)]
    ensures r.result.Some? <==> Accepted(response)
    ensures Accepted(response) ==>
              && r.result.value == PaymentResult("success", response.authorizationUrl)
              && r.order == order.(meta := r.order.meta, transactionId := response.transactionReference)
    ensures !Accepted(response) ==> r.order == order.(meta := r.order.meta)
  {
    var request := BuildInitRequest(gw, order, now);
    var stored := order.(meta := order.meta[TxnRefKey := request.reference]);
    var meta := UpdateMeta(order.id, TxnRefKey, request.reference);
    if Accepted(response) then
      Outcome(
        Some(PaymentResult("success", response.authorizationUrl)),
        stored.(transactionId := response.transactionReference),
        [meta, PostInitialize(request), SetTransactionId(order.id, response.transactionReference), SaveOrder(order.id),
         ClearNotices, AddNotice(InitiatedNotice)])
    else
      Outcome(None, stored, [meta, PostInitialize(request), ClearNotices, AddNotice(InitFailedNotice)])
  }

  /**
    After the meta write, an accepted call sets the transaction id, saves the
    order and writes nothing else; any other answer writes nothing more. Neither marks the
    payment complete or empties the cart.
   */
  lemma InitializeWritesOnly(gw: Config.Gateway, order: Orders.Order, now: nat, response: InitResponse)
    ensures var r := ProcessingWithNotchPay(gw, order, now, response);
            && EmptyCart !in r.effects
            && (Accepted(response) ==>
                  && SetTransactionId(order.id, response.transactionReference) in r.effects
                  && SaveOrder(order.id) in r.effects
                  && forall i :: 1 <= i < |r.effects| && WritesOrder(r.effects[i]) ==>
                    r.effects[i] == SetTransactionId(order.id, response.transactionReference) || r.effects[i] == SaveOrder(order.id))
            && (!Accepted(response) ==> forall i :: 1 <= i < |r.effects| ==> !WritesOrder(r.effects[i]))
  {
    var r := ProcessingWithNotchPay(gw, order, now, response);
    var request := r.effects[1].request;
    var meta := r.effects[0];
    if Accepted(response) {
      assert r.effects == [meta, PostInitialize(request), SetTransactionId(order.id, response.transactionReference), SaveOrder(order.id),
                           ClearNotices, AddNotice(InitiatedNotice)];
    } else {
      assert r.effects == [meta, PostInitialize(request), ClearNotices, AddNotice(InitFailedNotice)];
    }
  }

  /** Whatever notices were pending, an accepted call leaves only the redirecting notice, any other answer only the error notice. */
  lemma InitializeNotices(gw: Config.Gateway, order: Orders.Order, now: nat, response: InitResponse, before: seq<Notice>)
    ensures Accepted(response) ==> Notices(before, ProcessingWithNotchPay(gw, order, now, response).effects) == [InitiatedNotice]
    ensures !Accepted(response) ==> Notices(before, ProcessingWithNotchPay(gw, order, now, response).effects) == [InitFailedNotice]
  {
  }

  /** The reference stored on the order is the one sent to the provider, and it names the order. */
  lemma StoredReferenceNamesOrder(gw: Config.Gateway, order: Orders.Order, now: nat, response: InitResponse)
    ensures var r := ProcessingWithNotchPay(gw, order, now, response);
            && TxnRefKey in r.order.meta
            && r.order.meta[TxnRefKey] == r.effects[1].request.reference
            && Reference.ParseOrderId(r.order.meta[TxnRefKey]) == Decimal.Digits(order.id)
  {
  }

  /**
    `process_payment`: an order with a positive total goes to the provider;
    any other order is marked paid at once and the cart is emptied, with no
    result handed back.
   */
  function ProcessPayment(gw: Config.Gateway, order: Orders.Order, now: nat, response: InitResponse): (r: Outcome)
    ensures (exists i :: 0 <= i < |r.effects| && CallsProvider(r.effects[i])) <==> order.total > 0
    ensures order.total > 0 ==> r == ProcessingWithNotchPay(gw, order, now, response)
    ensures order.total <= 0 ==>
              && r.result.None?
              && r.order == order
              && r.effects == [PaymentComplete(order.id), EmptyCart]
  {
    if order.total > 0 then
      var r := ProcessingWithNotchPay(gw, order, now, response);
      assert CallsProvider(r.effects[1]);
      r
    else
      Outcome(None, order, [PaymentComplete(order.id), EmptyCart])
  }
}

=== FILE: orders.dfy ===
/**
  The host shop's order, as far as the gateway reads or writes it, and the
  order-status rules of the gateway class. Status names are the exact strings
  the gateway passes to the host, including the provider's spelling `canceled`.
 */
module Orders {
  import opened Wrappers
  import Config

  /**
    `total` stands for the host's decimal total, in whole units: the gateway
    compares it with 0 and sends it unchanged as the initialize amount.
   */
  datatype Order = Order(
    id: nat,
    total: int,
    currency: string,
    status: string,
    paymentMethod: string,
    itemNames: seq<string>,
    billingFullName: string,
    billingEmail: string,
    billingPhone: string,
    transactionId: Option<string>,
    meta: map<string, string>)

  /** Order statuses after which the customer is sent to the order-received page. */
  const PaidStatuses: seq<string> := ["processing", "completed", "on-hold"]

  predicate IsPaidStatus(status: string) {
    status in PaidStatuses
  }

  /**
    The status a provider status sets on the order, if any; `None` leaves the
    order's status as it is.
   */
  function TargetStatus(providerStatus: Option<string>): Option<string> {
    match providerStatus
    case Some("complete") => Some("completed")
    case Some("canceled") => Some("canceled")
    case Some("failed") => Some("failed")
    case _ => None
  }

  /**
    The status a completed payment should give an order: `processing` for an
    order paid through this gateway, the proposed status otherwise. The order
    id argument plays no part. The gateway class defines this as a filter
    callback but never registers it, so the host's `payment_complete` does
    not consult it.
   */
  function ChangePaymentCompleteOrderStatus(status: string, orderId: int, order: Option<Order>): (r: string)
    ensures r == status || r == "processing"
    ensures order.Some? && order.value.paymentMethod == Config.GatewayId ==> r == "processing"
    ensures r != status ==> order.Some? && order.value.paymentMethod == Config.GatewayId
  {
    if order.Some? && Config.GatewayId == order.value.paymentMethod then "processing" else status
  }
}

=== FILE: reference.dfy ===
/**
  The transaction reference that binds a provider transaction to an order:
  built as the order id, `_`, and the Unix time of the request; read back by
  taking the text before the first `_`. The reader does not check that this
  text is a number.
 */
module Reference {
  import opened Wrappers
  import Decimal

  const Separator: char := '_'

  /** The reference for an order: its id, the separator, and the Unix time of the request, all in decimal. */
  function BuildReference(orderId: nat, now: nat): (ref: string)
    ensures |ref| > |Decimal.Digits(orderId)| && ref[|Decimal.Digits(orderId)|] == Separator
    ensures forall i :: 0 <= i < |ref| && ref[i] == Separator ==> i == |Decimal.Digits(orderId)|
  {
    Decimal.Digits(orderId) + [Separator] + Decimal.Digits(now)
  }

  /**
    `explode('_', s)[0]`: the longest prefix of `s` without a `_`, which is
    followed by a `_` in `s` unless it is all of `s`.
   */
  function FirstSegment(s: string): (r: string)
    ensures r <= s
    ensures Separator !in r
    ensures |r| < |s| ==> s[|r|] == Separator
  {
    if |s| == 0 || s[0] == Separator then "" else [s[0]] + FirstSegment(s[1..])
  }

  /** The three properties of `FirstSegment` determine its result. */
  lemma FirstSegmentUnique(s: string, p: string)
    requires p <= s
    requires Separator !in p
    requires |p| < |s| ==> s[|p|] == Separator
    ensures FirstSegment(s) == p
  {
  }

  /** The order id text a verify response names: what precedes the first `_` of `merchant_reference`. */
  function ParseOrderId(merchantReference: string): (id: string)
    ensures id <= merchantReference && Separator !in id
    ensures |id| < |merchantReference| ==> merchantReference[|id|] == Separator
  {
    FirstSegment(merchantReference)
  }

  /** Parsing a reference built for an order gives back that order's id, as text and as a number. */
  lemma {:induction false} ParseBuildRoundTrip(orderId: nat, now: nat)
    ensures ParseOrderId(BuildReference(orderId, now)) == Decimal.Digits(orderId)
    ensures Decimal.ParseNat(ParseOrderId(BuildReference(orderId, now))) == Some(orderId)
  {
    var id := Decimal.Digits(orderId);
    var ref := BuildReference(orderId, now);
    assert !Decimal.IsDigit(Separator);
    assert ref[|id|] == Separator;
    FirstSegmentUnique(ref, id);
    Decimal.ParseDigits(orderId);
  }

  /** Whatever precedes the first `_` is passed on as the id, numeric or not. */
  lemma ParseOrderIdKeepsAnyPrefix(prefix: string, rest: string)
    requires Separator !in prefix
    ensures ParseOrderId(prefix + [Separator] + rest) == prefix
  {
    FirstSegmentUnique(prefix + [Separator] + rest, prefix);
  }

  /** A reference without any `_` is passed on whole. */
  lemma ParseOrderIdWithoutSeparator(s: string)
    requires Separator !in s
    ensures ParseOrderId(s) == s
  {
  }

  /** A reference such as `abc_123` yields the id text `abc`, which is not a number. */
  lemma NonNumericIdPassesThrough()
    ensures ParseOrderId("abc_123") == "abc"
    ensures Decimal.ParseNat(ParseOrderId("abc_123")) == None
  {
  }
}

=== FILE: verify.dfy ===
/**
  The return callback: `verify_transaction` fetches the transaction by its
  reference, finds the order named by the fetched `merchant_reference`, sets
  its status from the provider's status, and then sends the customer to the
  order-received page, leaves an error notice, or does nothing further. The
  provider's answer and the host's order lookup are inputs.
 */
module Verify {
  import opened Wrappers
  import Config
  import Reference
  import Decimal
  import opened Orders
  import opened Effects

  const TransactionsPath: string := "/transactions/"

  const OrderNotFoundNotice: Notice := Notice("Order Not Found", Error)

  const TxnNotFoundNotice: Notice := Notice("Transaction Not Found on Notch Pay Server. Retry checkout", Error)

  const RefreshNotice: Notice :=
    Notice("Unable to refresh handle your Transaction on Notch Pay, please refresh the page", Error)

  /** The fields read from a fetched transaction; a missing field, or a body that is not JSON, gives `None`. */
  datatype VerifyData = VerifyData(merchantReference: Option<string>, status: Option<string>)

  /** The provider's answer to the fetch; a failed transfer has no status code. */
  datatype VerifyResponse = FetchFailed | Fetched(status: int, data: VerifyData)

  /**
    The id text handed to the host's order lookup, if the lookup happened;
    the order after the call, if one was found; and the effects asked for.
   */
  datatype VerifyOutcome = VerifyOutcome(lookedUp: Option<string>, order: Option<Order>, effects: seq<Effect>)

  function TransactionUrl(reference: string): string {
    Config.Endpoint + TransactionsPath + reference
  }

  /** A missing `merchant_reference` reads as the empty string. */
  function MerchantReferenceText(data: VerifyData): string {
    data.merchantReference.GetOr("")
  }

  /** One `if (status == when) update_status(target)` test, threaded through the order and the effects. */
  function StatusStep(o: Order, effects: seq<Effect>, providerStatus: Option<string>, when: string, target: string): (Order, seq<Effect>) {
    if providerStatus == Some(when) then (o.(status := target), effects + [UpdateStatus(o.id, target)]) else (o, effects)
  }

  /** The three status tests, in the order they run. */
  function ApplyProviderStatus(o: Order, providerStatus: Option<string>): (Order, seq<Effect>) {
    var (o1, e1) := StatusStep(o, [], providerStatus, "complete", "completed");
    var (o2, e2) := StatusStep(o1, e1, providerStatus, "canceled", "canceled");
    StatusStep(o2, e2, providerStatus, "failed", "failed")
  }

  /**
    A provider status string meets at most one of the three tests, so running them
    in turn amounts to one lookup in the status table: one status update, or
    none and the order untouched.
   */
  lemma ProviderStatusTable(o: Order, providerStatus: Option<string>)
    ensures TargetStatus(providerStatus).Some? ==>
              ApplyProviderStatus(o, providerStatus)
              == (o.(status := TargetStatus(providerStatus).value), [UpdateStatus(o.id, TargetStatus(providerStatus).value)])
    ensures TargetStatus(providerStatus).None? ==> ApplyProviderStatus(o, providerStatus) == (o, [])
  {
    assert "complete"[1] != "canceled"[1] && |"complete"| != |"failed"| && |"canceled"| != |"failed"|;
    var t := TargetStatus(providerStatus);
    if t.Some? {
      assert [] + [UpdateStatus(o.id, t.value)] == [UpdateStatus(o.id, t.value)];
    }
  }

  /** The order as the status table leaves it. */
  function Settled(o: Order, providerStatus: Option<string>): Order {
    match TargetStatus(providerStatus)
    case Some(t) => o.(status := t)
    case None => o
  }

  /**
    What happens after the fetch once the order is found: at most one status
    update, as the status table says, then a redirect exactly when the
    resulting status is a paid one.
   */
  function SettleFoundOrder(o: Order, providerStatus: Option<string>): (r: (Order, seq<Effect>))
    ensures r.0 == Settled(o, providerStatus)
    ensures NoOrderWrites(r.1) <==> TargetStatus(providerStatus).None?
    ensures forall i :: 0 <= i < |r.1| && WritesOrder(r.1[i]) ==> i == 0 && r.1[i] == UpdateStatus(o.id, r.0.status)
    ensures forall i :: 0 <= i < |r.1| ==> !CallsProvider(r.1[i]) && r.1[i] != EmptyCart
    ensures !NoRedirect(r.1) <==> IsPaidStatus(r.0.status)
    ensures !NoRedirect(r.1) ==> RedirectToReturnUrl(o.id) in r.1
    ensures RedirectOnlyLast(r.1, o.id)
  {
    ProviderStatusTable(o, providerStatus);
    var (settled, updates) := ApplyProviderStatus(o, providerStatus);
    if IsPaidStatus(settled.status) then
      var effects := updates + [ClearNotices, RedirectToReturnUrl(o.id)];
      assert effects[|effects| - 1].RedirectToReturnUrl?;
      assert TargetStatus(providerStatus).Some? ==> WritesOrder(effects[0]);
      (settled, effects)
    else
      assert TargetStatus(providerStatus).Some? ==> WritesOrder(updates[0]);
      (settled, updates)
  }

  /** The whole trace for a found order: the fetch, then what settling the order asks for. */
  function FoundOrderTrace(fetch: Effect, o: Order, providerStatus: Option<string>): (r: seq<Effect>)
    requires fetch.GetTransaction?
    ensures |r| >= 1 && r[0] == fetch
    ensures r == [fetch] + SettleFoundOrder(o, providerStatus).1
    ensures forall i :: 0 < i < |r| ==> !CallsProvider(r[i])
    ensures forall i :: 0 <= i < |r| && WritesOrder(r[i]) ==> r[i] == UpdateStatus(o.id, Settled(o, providerStatus).status)
    ensures !NoRedirect(r) <==> IsPaidStatus(Settled(o, providerStatus).status)
    ensures !NoRedirect(r) ==> RedirectToReturnUrl(o.id) in r
    ensures RedirectOnlyLast(r, o.id)
  {
    var after := SettleFoundOrder(o, providerStatus).1;
    var r := [fetch] + after;
    assert forall k :: 0 <= k < |after| ==> r[k + 1] == after[k];
    PrependKeepsRedirectLast(fetch, after, o.id);
    r
  }

  /**
    The return callback for one reference: fetch the transaction, look up the
    order its merchant reference names, settle the order's status, and then
    redirect to the order-received page, leave an error notice, or do nothing
    further.
   */
  function VerifyTransaction(gw: Config.Gateway, reference: string, response: VerifyResponse, lookup: string -> Option<Order>): (r: VerifyOutcome)
    ensures |r.effects| >= 1
    ensures r.effects[0] == GetTransaction(TransactionUrl(reference), Config.GetPublicKey(gw.settings))
    ensures forall i :: 0 < i < |r.effects| ==> !CallsProvider(r.effects[i])
    ensures r.lookedUp.Some? <==> response.Fetched? && response.status == 200
    ensures r.lookedUp.Some? ==> r.lookedUp.value == Reference.ParseOrderId(MerchantReferenceText(response.data))
    ensures r.order.Some? <==> r.lookedUp.Some? && lookup(r.lookedUp.value).Some?
    ensures r.order.Some? ==> r.order.value == Settled(lookup(r.lookedUp.value).value, response.data.status)
    ensures r.order.None? ==> NoOrderWrites(r.effects)
    ensures r.order.Some? ==> forall i :: 0 <= i < |r.effects| && WritesOrder(r.effects[i]) ==>
              r.effects[i] == UpdateStatus(r.order.value.id, r.order.value.status)
    ensures !NoRedirect(r.effects) <==> r.order.Some? && IsPaidStatus(r.order.value.status)
    ensures !NoRedirect(r.effects) ==> RedirectToReturnUrl(r.order.value.id) in r.effects
    ensures r.order.Some? ==> RedirectOnlyLast(r.effects, r.order.value.id)
    ensures r.order.Some? ==> r.effects == [r.effects[0]] + SettleFoundOrder(lookup(r.lookedUp.value).value, response.data.status).1
  {
    var fetch := [GetTransaction(TransactionUrl(reference), Config.GetPublicKey(gw.settings))];
    match response
    case FetchFailed =>
      VerifyOutcome(None, None, fetch + [ClearNotices, AddNotice(RefreshNotice)])
    case Fetched(status, data) =>
      if status == 200 then
        var id := Reference.ParseOrderId(MerchantReferenceText(data));
        match lookup(id)
        case None =>
          VerifyOutcome(Some(id), None, fetch + [ClearNotices, AddNotice(OrderNotFoundNotice)])
        case Some(o) =>
          VerifyOutcome(Some(id), Some(Settled(o, data.status)), FoundOrderTrace(fetch[0], o, data.status))
      else if status == 404 then
        VerifyOutcome(None, None, fetch + [ClearNotices, AddNotice(TxnNotFoundNotice)])
      else
        VerifyOutcome(None, None, fetch)
  }

  /**
    The callback writes an order at most once, writes the found order exactly
    when the provider's status is one the status table maps, and never
    empties the cart.
   */
  lemma VerifyWritesAtMostOnce(gw: Config.Gateway, reference: string, response: VerifyResponse, lookup: string -> Option<Order>)
    ensures var r := VerifyTransaction(gw, reference, response, lookup);
            && (r.order.Some? ==> (NoOrderWrites(r.effects) <==> TargetStatus(response.data.status).None?))
            && (forall i, j :: 0 <= i < j < |r.effects| && WritesOrder(r.effects[i]) ==> !WritesOrder(r.effects[j]))
            && EmptyCart !in r.effects
  {
    var r := VerifyTransaction(gw, reference, response, lookup);
    if r.order.Some? {
      var o := lookup(r.lookedUp.value).value;
      var after := SettleFoundOrder(o, response.data.status).1;
      assert r.effects == [r.effects[0]] + after;
      assert TargetStatus(response.data.status).Some? ==> WritesOrder(after[0]) && r.effects[1] == after[0];
      forall i, j | 0 <= i < j < |r.effects| && WritesOrder(r.effects[i])
        ensures !WritesOrder(r.effects[j])
      {
        assert r.effects[i] == after[i - 1] && r.effects[j] == after[j - 1];
      }
    }
  }

  /** A failed fetch looks up no order, redirects nowhere, and leaves only the refresh notice. */
  lemma TransportFailureOnlyNotices(gw: Config.Gateway, reference: string, lookup: string -> Option<Order>, before: seq<Notice>)
    ensures var r := VerifyTransaction(gw, reference, FetchFailed, lookup);
            && r.lookedUp.None? && NoOrderWrites(r.effects) && NoRedirect(r.effects)
            && Notices(before, r.effects) == [RefreshNotice]
  {
  }

  /** A 404 looks up no order, redirects nowhere, and leaves only the transaction-not-found notice. */
  lemma NotFoundOnlyNotices(gw: Config.Gateway, reference: string, data: VerifyData, lookup: string -> Option<Order>, before: seq<Notice>)
    ensures var r := VerifyTransaction(gw, reference, Fetched(404, data), lookup);
            && r.lookedUp.None? && NoOrderWrites(r.effects) && NoRedirect(r.effects)
            && Notices(before, r.effects) == [TxnNotFoundNotice]
  {
  }

  /** Any status other than 200 and 404 does nothing beyond the fetch: no lookup, no write, no notice change. */
  lemma OtherStatusSilent(gw: Config.Gateway, reference: string, status: int, data: VerifyData, lookup: string -> Option<Order>, before: seq<Notice>)
    requires status != 200 && status != 404
    ensures var r := VerifyTransaction(gw, reference, Fetched(status, data), lookup);
            && r.lookedUp.None? && NoOrderWrites(r.effects) && NoRedirect(r.effects)
            && Notices(before, r.effects) == before
  {
  }

  /** A 200 naming an order the host does not know writes nothing and leaves only the order-not-found notice. */
  lemma MissingOrderOnlyNotices(gw: Config.Gateway, reference: string, data: VerifyData, lookup: string -> Option<Order>, before: seq<Notice>)
    requires lookup(Reference.ParseOrderId(MerchantReferenceText(data))).None?
    ensures var r := VerifyTransaction(gw, reference, Fetched(200, data), lookup);
            && r.order.None? && NoOrderWrites(r.effects) && NoRedirect(r.effects)
            && Notices(before, r.effects) == [OrderNotFoundNotice]
  {
  }

  /**
    For a found order, the provider's status alone decides the new status:
    `complete` gives `completed`, `canceled` and `failed` give themselves,
    anything else leaves the status as it was.
   */
  lemma StatusTable(gw: Config.Gateway, reference: string, data: VerifyData, lookup: string -> Option<Order>)
    requires lookup(Reference.ParseOrderId(MerchantReferenceText(data))).Some?
    ensures var o := lookup(Reference.ParseOrderId(MerchantReferenceText(data))).value;
            var r := VerifyTransaction(gw, reference, Fetched(200, data), lookup);
            && r.order.Some?
            && r.order.value == o.(status := r.order.value.status)
            && (data.status == Some("complete") ==> r.order.value.status == "completed")
            && (data.status == Some("canceled") ==> r.order.value.status == "canceled")
            && (data.status == Some("failed") ==> r.order.value.status == "failed")
            && (data.status !in {Some("complete"), Some("canceled"), Some("failed")} ==> r.order.value.status == o.status)
  {
  }

  /** After the fetch, a found order's notices are cleared on redirect and left as they were otherwise. */
  lemma SettleFoundOrderNotices(o: Order, providerStatus: Option<string>, before: seq<Notice>)
    ensures var (settled, after) := SettleFoundOrder(o, providerStatus);
            Notices(before, after) == (if IsPaidStatus(settled.status) then [] else before)
  {
    ProviderStatusTable(o, providerStatus);
    var updates := ApplyProviderStatus(o, providerStatus).1;
    var settled := SettleFoundOrder(o, providerStatus).0;
    var after := SettleFoundOrder(o, providerStatus).1;
    assert forall i :: 0 <= i < |updates| ==> updates[i].UpdateStatus?;
    NoticesUnchanged(before, updates);
    if IsPaidStatus(settled.status) {
      assert after == updates + [ClearNotices, RedirectToReturnUrl(o.id)];
      NoticesAppend(before, updates, [ClearNotices, RedirectToReturnUrl(o.id)]);
      assert [ClearNotices, RedirectToReturnUrl(o.id)][..1] == [ClearNotices];
    } else {
      assert after == updates;
    }
  }

  /**
    For a found order the notices are cleared when the customer is redirected
    and left as they were otherwise.
   */
  lemma FoundOrderNotices(gw: Config.Gateway, reference: string, response: VerifyResponse,
                          lookup: string -> Option<Order>, before: seq<Notice>)
    ensures var r := VerifyTransaction(gw, reference, response, lookup);
            r.order.Some? ==> Notices(before, r.effects) == (if IsPaidStatus(r.order.value.status) then [] else before)
  {
    var r := VerifyTransaction(gw, reference, response, lookup);
    if r.order.Some? {
      var o := lookup(r.lookedUp.value).value;
      var after := SettleFoundOrder(o, response.data.status).1;
      NoticesUnchanged(before, [r.effects[0]]);
      NoticesAppend(before, [r.effects[0]], after);
      SettleFoundOrderNotices(o, response.data.status, before);
    }
  }

  /**
    Running the callback again, against the order as the first run left it,
    gives the same order and the same redirect decision.
   */
  lemma VerifyIdempotent(gw: Config.Gateway, reference: string, response: VerifyResponse,
                         lookup: string -> Option<Order>, lookupAfter: string -> Option<Order>)
    requires VerifyTransaction(gw, reference, response, lookup).order.Some?
    requires lookupAfter(VerifyTransaction(gw, reference, response, lookup).lookedUp.value)
             == VerifyTransaction(gw, reference, response, lookup).order
    ensures var first := VerifyTransaction(gw, reference, response, lookup);
            var second := VerifyTransaction(gw, reference, response, lookupAfter);
            && second.order == first.order
            && (NoRedirect(second.effects) <==> NoRedirect(first.effects))
  {
  }

  /**
    When the provider echoes a reference built for an order, the lookup is
    made with that order's id and the order found is the one settled.
   */
  lemma VerifyFindsBuiltOrder(gw: Config.Gateway, reference: string, orderId: nat, now: nat, providerStatus: Option<string>,
                              lookup: string -> Option<Order>)
    requires lookup(Decimal.Digits(orderId)).Some?
    ensures var data := VerifyData(Some(Reference.BuildReference(orderId, now)), providerStatus);
            var r := VerifyTransaction(gw, reference, Fetched(200, data), lookup);
            && r.lookedUp == Some(Decimal.Digits(orderId))
            && Decimal.ParseNat(r.lookedUp.value) == Some(orderId)
            && r.order == Some(Settled(lookup(Decimal.Digits(orderId)).value, providerStatus))
  {
    Reference.ParseBuildRoundTrip(orderId, now);
  }

  /**
    The request entry point: a request is handled as the return callback,
    and the transaction it names is verified, exactly when its query has
    both `np-callback` and `reference`.
   */
  function HandleRequest(gw: Config.Gateway, query: map<string, string>, response: VerifyResponse,
                         lookup: string -> Option<Order>): (r: Option<VerifyOutcome>)
    ensures r.Some? <==> "np-callback" in query && "reference" in query
    ensures r.Some? ==> r.value == VerifyTransaction(gw, query["reference"], response, lookup)
    ensures r.Some? ==> r.value.effects[0] == GetTransaction(TransactionUrl(query["reference"]), Config.GetPublicKey(gw.settings))
  {
    var st := Config.DetectCallback(Config.InitialCallbackState, query);
    if st.isCallback then Some(VerifyTransaction(gw, st.queryVars["reference"], response, lookup)) else None
  }
}

=== FILE: wrappers.dfy ===
/** Optional values. PHP's `null`, and an array key that is not set, are `None`. */
module Wrappers {

  datatype Option<+T> = None | Some(value: T) {

    /** The wrapped value, or `default` when there is none. */
    function GetOr(default: T): T {
      match this
      case Some(v) => v
      case None => default
    }
  }
}
